=== FILE: README.md ===
# Streaming engine of the PlayStation 1 SPU audio streaming example

This project is a Dafny model of the double-buffered audio streaming engine in
`src/spu.c`, together with the `.VAG` header and stream context it works on
(`inc/spu.h`).

The engine plays a long interleaved `.VAG` asset through the SPU. It works in
chunks: one interleave block for each channel. Two chunk-sized slots in SPU RAM,
from `BUFFER_START_ADDR` on, take turns:

- The position IRQ fires when the voices start playing the slot loaded last.
- `spu_irq_handler` then flips the slot parity and steps the chunk cursor
  modulo the chunk count.
- It redirects the IRQ address and every stream voice's loop address to the
  other slot, and starts a DMA upload of the next chunk into that slot.
- `spu_dma_handler` re-arms the IRQ when the upload is done.
- `init_stream` reads the header, seeds the cursor one step before chunk 0,
  and primes the first slot.
- `start_stream` and `stop_stream` key the stream's voices on and off.
  `reset_spu_channels` parks all 24 voices on the dummy block.

The model is functional. The context and a shadow of the SPU registers form a
`System`, and each handler or control operation is a function from one
`System` to the next. The files are:

- `c_int.dfy`: the target's conversions between 32-bit `int` and `uint32_t`.
- `endian.dfy`: little- and big-endian byte readings, and `SWAP_ENDIAN`.
- `vag_header.dfy`: the 48-byte header record, its parser and encoder, and the
  values `init_stream` takes from it.
- `spu_regs.dfy`: the register shadow, the IRQ-enable bit, the per-voice
  register maps and the key mask.
- `stream.dfy`: the stream context and the six operations.
- `stream_props.dfy`: the invariant every operation keeps, the cyclic upload
  schedule, the double-buffer discipline, the payload bounds, and start/stop
  interaction.
- `arith.dfy`: arithmetic lemmas used by the proofs.

Some behaviours of the code are easy to miss, and the model keeps them:

- **Starting twice.** `start_stream` is not idempotent. Every call runs one
  IRQ step, so a second call moves the cursor and the parity on again
  (`StreamProps.StartTwiceStepsTwice`).
- **The IRQ handler.** Every call of `spu_irq_handler` advances the cursor and
  flips the parity, including the calls made by hand from `init_stream` and
  `start_stream`.
- **Stopping.** `stop_stream` keys the stream's voices off and then on again.
  In between it parks them on the silent dummy block, so they keep playing
  silence (`Stream.StopStream`).
- **After start.** `buffering` is 1 after `start_stream`. An upload is in
  flight until the DMA completion handler runs.
- **After init.** Priming loads chunk 0, so the first IRQ after `init_stream`
  loads chunk 1 (`StreamProps.ExampleInit`).

## Model

| member | source | states |
|---|---|---|
| `CInt.ToU32` | src/spu.c:37 | conversion to `uint32_t`: the result lies in `[0, 2^32)`, is congruent to the input modulo 2^32, and equals it when it is already in range |
| `CInt.ToI32` | src/spu.c:94 | storing a `uint32_t` in an `int`: the result fits in 32 bits, converts back to the same `uint32_t`, and equals the input exactly when the input is below 2^31 |
| `CInt.Int32RoundTrip` | src/spu.c:94 | every 32-bit `int` survives conversion to `uint32_t` and back |
| `Endian.SwapEndian` | src/spu.c:11-16 | byte `i` of the result is byte `3 - i` of the input |
| `Endian.SwapInvolution` | src/spu.c:11-16 | swapping twice gives the word back |
| `Endian.SwapOfLittleIsBig` | src/spu.c:11-16 | swapping the native little-endian reading of four bytes gives their big-endian reading |
| `Endian.Le32BytesRoundTrip` | inc/spu.h:6 | writing out the little-endian reading of four bytes gives those bytes back |
| `VagHeader.Parse` | inc/spu.h:3-12 | reading the record from the asset: encoding the result gives back exactly the first 48 bytes, and the reserved and name fields have their declared sizes |
| `VagHeader.PayloadSize` | src/spu.c:94 | `SWAP_ENDIAN(vag->size)`: the big-endian reading of the size field's bytes in file order |
| `VagHeader.SampleRate` | src/spu.c:95 | `SWAP_ENDIAN(vag->sample_rate)`: the big-endian reading of the rate field's bytes in file order |
| `Endian.SwapIsBigReading` | src/spu.c:11-16 | `SWAP_ENDIAN` of a word is the big-endian reading of its bytes in storage order |
| `VagHeader.ParseEncode` | inc/spu.h:3-12 | parsing the encoding of a well-formed header gives the header back |
| `VagHeader.EncodeParse` | inc/spu.h:3-12 | encoding the parsed header gives back the first 48 bytes of the asset |
| `VagHeader.LayoutFitsRegion` | inc/spu.h:3-12 | the fields lie end to end without padding, 48 bytes in all, inside the 2048-byte header region |
| `VagHeader.MagicSpellsVagi` | inc/spu.h:4 | the magic word is the bytes "VAGi" in file order |
| `VagHeader.FieldsInFileOrder` | inc/spu.h:6-8 | the interleave is the little-endian reading of bytes 8..12; the payload size and sample rate are the big-endian readings of bytes 12..16 and 16..20 |
| `VagHeader.Interleave` | src/spu.c:90 | the interleave is an unsigned 32-bit value, zero exactly when the stored field is zero |
| `VagHeader.ChannelCount` | src/spu.c:96 | a stored count of 0 means one channel; any other stored count is used as is |
| `SpuRegs.Disarm` | src/spu.c:34 | clearing bit 6 of SPU_CTRL disables the IRQ and changes no other bit or register |
| `SpuRegs.Arm` | src/spu.c:62 | setting bit 6 of SPU_CTRL enables the IRQ and changes no other bit or register |
| `SpuRegs.ArmDisarmInverse` | src/spu.c:60-65 | re-enabling the IRQ after disabling it restores the registers, and the other way round |
| `SpuRegs.Stripe` | src/spu.c:52-53 | voices `0 .. n-1` get `base + stride * i` and every other voice keeps its value |
| `SpuRegs.Fill` | src/spu.c:76-79 | voices `0 .. n-1` get one value and every other voice keeps its value |
| `SpuRegs.ChannelMask` | src/spu.c:109 | bit `i` of `0x00ffffff >> (24 - channels)` is set exactly for the voices `i < channels` |
| `StreamProps.AllVoicesMask` | src/spu.c:74 | `0x00ffffff` is the mask of exactly the 24 voices, and the channel mask for 24 channels |
| `Stream.NextCursor` | src/spu.c:37 | the cursor step using the unsigned remainder: from -1 it gives chunk 0, from a valid cursor the next chunk with wrap-around, and the result always fits an `int` |
| `Stream.Advance` | src/spu.c:36-49 | the context part of the IRQ handler: geometry kept, cursor on to the next chunk modulo the count, parity flipped, upload in flight, slot address chosen by the new parity |
| `Stream.IrqStep` | src/spu.c:30-58 | the IRQ is disabled; the IRQ address and each stream voice's loop address point into the new slot; one upload of the cursor's chunk into that slot is logged; nothing else changes |
| `Stream.DmaStep` | src/spu.c:60-65 | the IRQ is re-enabled and the in-flight flag cleared; nothing else changes |
| `Stream.ResetChannels` | src/spu.c:73-82 | all 24 voices are keyed off, parked on the dummy block at pitch 0x1000, and keyed on again; nothing else changes |
| `Stream.ChunkCount` | src/spu.c:94 | the chunk count is the ceiling of size over interleave, unless the unsigned sum `size + interleave - 1` wraps past 2^32, in which case the count is 0 |
| `Stream.SeedContext` | src/spu.c:90-99 | the header's values (interleave, `uint32_t` chunk count, sample rate) are stored through the `int` conversion, with the cursor at -1 and parity 1; the slot address and in-flight flag are kept |
| `Stream.Prime` | src/spu.c:101-105 | priming from the seed uploads chunk 0 into the first slot and leaves the IRQ armed with no upload in flight |
| `Stream.InitStream` | src/spu.c:84-106 | fails exactly when the interleave is zero (`ZeroInterleave`) or, failing that, the chunk count is zero (`NoChunks`); otherwise the geometry comes from the header and the stream is primed on chunk 0 |
| `Stream.StartStream` | src/spu.c:108-132 | stream voices point into the slot primed last, with the stream pitch and envelope; voices 0 and 1 are panned left and right; the stream's voices are keyed on; one IRQ step follows |
| `Stream.StopStream` | src/spu.c:137-146 | the context is unchanged; the stream's voices are keyed off, parked on the dummy block, and keyed on again; nothing else changes |
| `StreamProps.InitEstablishesInv` | src/spu.c:84-106 | a header whose interleave and chunk count fit an `int` initialises successfully into a state satisfying the stream invariant |
| `StreamProps.WrappedSizeFailsInit` | src/spu.c:94 | a header whose size and interleave wrap the `uint32_t` sum gets no chunks, so `init_stream` fails with `NoChunks` (a remainder by zero at src/spu.c:37 in C) |
| `StreamProps.InitGeometry` | src/spu.c:90-94 | for such a header the interleave and chunk count reach the context without wrapping |
| `StreamProps.IrqStepKeepsInv` | src/spu.c:30-58 | the IRQ handler keeps the stream invariant |
| `StreamProps.DmaStepKeepsInv` | src/spu.c:60-65 | the DMA completion handler keeps the stream invariant |
| `StreamProps.StartKeepsInv` | src/spu.c:108-132 | `start_stream` keeps the stream invariant |
| `StreamProps.StopKeepsInv` | src/spu.c:137-146 | `stop_stream` keeps the stream invariant |
| `StreamProps.ResetKeepsInv` | src/spu.c:73-82 | `reset_spu_channels` keeps the stream invariant |
| `StreamProps.UploadAvoidsPlayingSlot` | src/spu.c:48-53 | each IRQ step uploads into the slot other than the one playing; the two slots do not overlap and both lie above the dummy block |
| `StreamProps.StartPlaysOneSlotFillsOther` | src/spu.c:115-131 | `start_stream` points the voices at the slot primed last and uploads into the other, disjoint one |
| `StreamProps.Cycle` | src/spu.c:30-65 | an IRQ followed by its DMA completion advances the context and logs the upload of the new chunk into the new slot |
| `StreamProps.Run` | src/spu.c:30-65 | `k` such cycles keep the geometry and log exactly `k` uploads |
| `StreamProps.RunContext` | src/spu.c:36-41 | the context after `k` cycles depends on the starting context alone |
| `StreamProps.SeededCursor` | src/spu.c:98-99 | from the seed, after `k > 0` cycles the cursor is on chunk `(k - 1) mod numChunks` and the parity has flipped `k` times |
| `StreamProps.AdvanceWraps` | src/spu.c:37 | on a valid context the cursor step is `(next + 1) mod numChunks` |
| `StreamProps.SeededSchedule` | src/spu.c:37-57 | from the seed, upload `j` is chunk `j mod numChunks` into slot `j mod 2`: the chunks go round cyclically, alternating slots |
| `StreamProps.WrapAround` | src/spu.c:37 | upload `numChunks` from the seed is chunk 0 again |
| `StreamProps.PrimeIsFirstStep` | src/spu.c:103-105 | priming is the first cycle of the schedule |
| `StreamProps.InitIsFirstCycle` | src/spu.c:84-106 | for a header whose interleave and chunk count fit an `int`, `init_stream` builds a seed (cursor -1, parity 1) and its result is exactly the first cycle from that seed |
| `StreamProps.InitThenCycles` | src/spu.c:84-106 | after `init_stream` and `k` more IRQ/DMA cycles, the uploads are loads `0 .. k` of the cyclic schedule |
| `StreamProps.StartThenDmaIsCycle` | src/spu.c:108-132 | `start_stream` followed by its DMA completion leaves the same context and uploads as one cycle of the schedule |
| `StreamProps.UploadStaysInPayload` | src/spu.c:57 | if the payload holds `numChunks` whole chunks, every upload reads inside the payload |
| `StreamProps.TotalSizeOverreads` | src/spu.c:94 | if the header's size counts all channels, the chunk count is too large and uploads read past the payload (88200 bytes of stereo at interleave 4096) |
| `StreamProps.StopThenStart` | src/spu.c:137-146 | a stop before a start changes neither the context, the voice addresses nor the uploads the start produces |
| `StreamProps.StartVoicesAfterStop` | src/spu.c:115-116 | the voice addresses `start_stream` writes replace the ones `stop_stream` parked |
| `StreamProps.IrqStepReadsOnlyContext` | src/spu.c:30-58 | the IRQ step's context and uploads depend only on the context and the earlier uploads |
| `StreamProps.StartTwiceStepsTwice` | src/spu.c:131 | two starts advance the context twice, so the cursor moves on again whenever there is more than one chunk |
| `StreamProps.AdvanceTwice` | src/spu.c:37 | two cursor steps move the cursor by two modulo the count; the second lands on a different chunk than the first whenever there is more than one |
| `StreamProps.OnlyDmaCompletionArms` | src/spu.c:60-65 | the IRQ step and start leave the IRQ disabled with an upload in flight; stop and reset change neither |
| `StreamProps.CursorUsesUnsignedRemainder` | src/spu.c:37 | the cursor step takes the remainder of `uint32_t` operands: from -2 with 3 chunks it gives 0, where the Euclidean remainder of -1 is 2 (and C's signed one is -1) |
| `StreamProps.ExampleInit` | src/spu.c:84-106 | 88200 bytes of stereo at interleave 4096 give 22 chunks; after init chunk 0 is resident and the next IRQ uploads chunk 1 from offset 8192 |
| `StreamProps.ExampleWrap` | src/spu.c:37 | with 22 chunks, the 23rd upload from the seed is chunk 0 again |

## Left out

- Register writes and SDK calls are not executed. `SPU_CTRL`, `SPU_IRQ_ADDR`,
  the voice registers, `SpuSetKey`, `SpuSetTransferStartAddr` and `SpuWrite`
  become fields of a register shadow. Key commands and uploads are logs of
  commands.
- Key commands and uploads go to two separate logs, so the model does not
  record their relative order: that `start_stream` keys the voices on
  (src/spu.c:130) before its IRQ step starts the upload (src/spu.c:131). The
  final state does not depend on it.
- `getSPUAddr` is not modelled: addresses stay in bytes, and the conversion to
  8-byte units is library code.
- `getSPUSampleRate` is library code. The pitch register records the rate it
  was derived from (`ForRate(hz)`).
- Interrupt registration (`InterruptCallback`, `DMACallback`) and the critical
  section are not modelled. The handlers are plain transitions.
- Preemption and concurrency are not modelled. A handler never interrupts
  another operation part-way through.
- `Stream.InitStream`: the busy-wait is modelled as the DMA completion that
  ends it. If the completion never fires, `init_stream` hangs; that
  non-termination is not modelled.
- `Stream.IrqStep`: `chunk_size`, `addr`, `chunk * chunk_size` and
  `buffer_size * i` are unbounded integers here. Signed 32-bit overflow, which
  C leaves undefined, is not modelled.
- `Stream.Advance`: `db_active` is an `int8_t` in the source and an 8-bit
  vector here. Only its values 0 and 1 are ever reached, and for them the two
  agree.
- `Stream.StartStream`: the volume and envelope values are recorded, not
  interpreted.
- `Stream.InitStream`: the C code has no error return. `Failure(ZeroInterleave)`
  stands for the unguarded division by the interleave (src/spu.c:94), and
  `Failure(NoChunks)` for the remainder by a zero chunk count in the priming
  IRQ step (src/spu.c:37). Both are undefined behaviour in C.
- `Stream.StartStream`: requires at most 24 channels (`MaskDefined`), because
  the shift `0x00ffffff >> (24 - channels)` (src/spu.c:109) is undefined for a
  negative count. `init_stream` accepts any stored count up to 0xffff, so a
  header with more than 24 channels reaches this undefined shift.
- `Stream.StopStream`: requires `MaskDefined` for the same shift at
  src/spu.c:138.
- `Stream.IrqStep`: with more than 24 channels, the loop address loop writes
  map entries 24 and up. On the device these are not voice registers; the
  model records the writes but does not say what the device does with them.
- `StreamProps.InitIsFirstCycle`: requires the `buffering` flag to hold 0 or 1
  before `init_stream`. It does so for the zero-initialised global and after
  every operation. `StreamProps.InitThenCycles` requires the same.
- `StreamProps.UploadStaysInPayload`: holds only when the payload holds
  `numChunks` whole chunks. The code does not check this.
- The rest of the repository is not part of this model: `main.c`, the cube
  demo, and the GPU and controller code.

=== FILE: arith.dfy ===
/** Integer facts the chunk arithmetic needs. */
module Arith {

  lemma PositiveProduct(a: int, b: int)
    requires 0 < a && 0 < b
    ensures 0 < a * b
  {
  }

  lemma MulMonotone(a: int, b: int, c: int)
    requires a <= b && 0 <= c
    ensures a * c <= b * c
  {
    assert b * c - a * c == (b - a) * c;
  }

  lemma MulAtLeast(x: int, n: int)
    requires 1 <= x && 0 < n
    ensures n <= x * n
  {
    assert x * n == (x - 1) * n + n;
    assert 0 <= (x - 1) * n;
  }

  /** Uniqueness of quotient and remainder. */
  lemma ModUnique(a: int, n: int, q: int, r: int)
    requires 0 < n && a == q * n + r && 0 <= r < n
    ensures a % n == r
  {
    var q', r' := a / n, a % n;
    assert a == q' * n + r';
    assert (q - q') * n == r' - r by {
      assert (q - q') * n == q * n - q' * n;
    }
    if q > q' {
      MulAtLeast(q - q', n);
    } else if q < q' {
      MulAtLeast(q' - q, n);
    }
  }

  lemma ModSucc(a: nat, n: int)
    requires 0 < n
    ensures (a % n + 1) % n == (a + 1) % n
  {
    var q, r := a / n, a % n;
    if r + 1 < n {
      ModUnique(a + 1, n, q, r + 1);
      ModUnique(r + 1, n, 0, r + 1);
    } else {
      ModUnique(a + 1, n, q + 1, 0);
      ModUnique(r + 1, n, 1, 0);
    }
  }

  /** Stepping a cursor in `-1 .. n-1` modulo `n` wraps only at the end. */
  lemma WrapSucc(c: int, n: int)
    requires 0 < n && -1 <= c < n
    ensures (c + 1) % n == (if c + 1 == n then 0 else c + 1)
  {
    if c + 1 == n {
      ModUnique(c + 1, n, 1, 0);
    } else {
      ModUnique(c + 1, n, 0, c + 1);
    }
  }

  /** Rounding-up division brackets the dividend. */
  lemma CeilDivBounds(a: int, b: int)
    requires 0 <= a && 0 < b
    ensures ((a + b - 1) / b - 1) * b < a <= ((a + b - 1) / b) * b
  {
    var n, r := (a + b - 1) / b, (a + b - 1) % b;
    assert a + b - 1 == n * b + r;
    assert (n - 1) * b == n * b - b;
  }

  /** A dividend smaller than the divisor has quotient 0. */
  lemma DivSmall(a: int, b: int)
    requires 0 <= a < b
    ensures a / b == 0
  {
    ModUnique(a, b, 0, a);
    assert (a / b) * b == 0 by {
      assert a == (a / b) * b + a % b;
    }
  }

  /** The quotient times the divisor does not exceed the dividend. */
  lemma DivBelow(a: int, b: int)
    requires 0 <= a && 0 < b
    ensures 0 <= a / b && (a / b) * b <= a
  {
    assert a == (a / b) * b + a % b;
  }

  /** Stepping a cursor modulo `n > 1` always moves it. */
  lemma NextDiffers(c: int, n: int)
    requires 1 < n && 0 <= c < n
    ensures (c + 1) % n != c
  {
    if c + 1 < n {
      ModUnique(c + 1, n, 0, c + 1);
    } else {
      ModUnique(c + 1, n, 1, 0);
    }
  }
}

=== FILE: c_int.dfy ===
/** The C integer conversions the streaming code relies on: the MIPS target has
    a 32-bit `int`, and the code mixes `int` with `uint32_t` operands. */
module CInt {

  const TWO_32: int := 0x1_0000_0000
  const TWO_31: int := 0x8000_0000

  /** An `int` value the target can hold. */
  predicate IsInt32(x: int) {
    -TWO_31 <= x < TWO_31
  }

  /** Conversion of any integer value to `uint32_t`: reduction modulo 2^32. */
  function ToU32(x: int): (r: int)
    ensures 0 <= r < TWO_32
    ensures (x - r) % TWO_32 == 0
    ensures 0 <= x < TWO_32 ==> r == x
    ensures TWO_32 <= x < 2 * TWO_32 ==> r == x - TWO_32
    ensures -TWO_32 <= x < 0 ==> r == x + TWO_32
  {
    x % TWO_32
  }

  /** Conversion of a `uint32_t` value to `int`, two's complement as the
      target compiler defines it. */
  function ToI32(u: int): (r: int)
    requires 0 <= u < TWO_32
    ensures IsInt32(r)
    ensures ToU32(r) == u
    ensures u < TWO_31 <==> r == u
  {
    if u < TWO_31 then u else u - TWO_32
  }

  /** Converting an `int` to `uint32_t` and back is the identity. */
  lemma Int32RoundTrip(x: int)
    requires IsInt32(x)
    ensures ToI32(ToU32(x)) == x
  {
  }
}

=== FILE: endian.dfy ===
/** Bytes, 32-bit words and the byte swap `SWAP_ENDIAN` of src/spu.c. */
module Endian {

  type Byte = bv8

  /** Byte `i` of `x`, counting from the least significant byte. */
  function ByteOf(x: bv32, i: nat): Byte
    requires i < 4
  {
    if i == 0 then (x & 0xff) as Byte
    else if i == 1 then ((x >> 8) & 0xff) as Byte
    else if i == 2 then ((x >> 16) & 0xff) as Byte
    else (x >> 24) as Byte
  }

  /** The little-endian reading of four bytes (the target's native order). */
  function Le32(b0: Byte, b1: Byte, b2: Byte, b3: Byte): (w: bv32)
    ensures ByteOf(w, 0) == b0 && ByteOf(w, 1) == b1
    ensures ByteOf(w, 2) == b2 && ByteOf(w, 3) == b3
  {
    (b0 as bv32) | ((b1 as bv32) << 8) | ((b2 as bv32) << 16) | ((b3 as bv32) << 24)
  }

  /** The big-endian reading of four bytes. */
  function Be32(b0: Byte, b1: Byte, b2: Byte, b3: Byte): (w: bv32)
    ensures ByteOf(w, 3) == b0 && ByteOf(w, 2) == b1
    ensures ByteOf(w, 1) == b2 && ByteOf(w, 0) == b3
  {
    Le32(b3, b2, b1, b0)
  }

  function Le32At(s: seq<Byte>, off: nat): bv32
    requires off + 4 <= |s|
  {
    Le32(s[off], s[off + 1], s[off + 2], s[off + 3])
  }

  function Be32At(s: seq<Byte>, off: nat): bv32
    requires off + 4 <= |s|
  {
    Be32(s[off], s[off + 1], s[off + 2], s[off + 3])
  }

  function Le16At(s: seq<Byte>, off: nat): (w: bv16)
    requires off + 2 <= |s|
    ensures (w & 0xff) as Byte == s[off] && (w >> 8) as Byte == s[off + 1]
  {
    (s[off] as bv16) | ((s[off + 1] as bv16) << 8)
  }

  /** The four bytes of `x` in little-endian order. */
  function Le32Bytes(x: bv32): (s: seq<Byte>)
    ensures |s| == 4
    ensures Le32At(s, 0) == x
  {
    [ByteOf(x, 0), ByteOf(x, 1), ByteOf(x, 2), ByteOf(x, 3)]
  }

  function Le16Bytes(x: bv16): (s: seq<Byte>)
    ensures |s| == 2
    ensures Le16At(s, 0) == x
  {
    [(x & 0xff) as Byte, (x >> 8) as Byte]
  }

  /** `SWAP_ENDIAN(x)`: masks and shifts that exchange the outer and the
      inner byte pairs of a 32-bit word. */
  function SwapEndian(x: bv32): (r: bv32)
    ensures ByteOf(r, 0) == ByteOf(x, 3) && ByteOf(r, 1) == ByteOf(x, 2)
    ensures ByteOf(r, 2) == ByteOf(x, 1) && ByteOf(r, 3) == ByteOf(x, 0)
  {
    ((x & 0x0000_00ff) << 24) |
    ((x & 0x0000_ff00) << 8) |
    ((x & 0x00ff_0000) >> 8) |
    ((x & 0xff00_0000) >> 24)
  }

  /** Swapping twice gives the word back. */
  lemma SwapInvolution(x: bv32)
    ensures SwapEndian(SwapEndian(x)) == x
  {
  }

  /** Swapping the native (little-endian) reading of four bytes gives their
      big-endian reading: this is why the header's big-endian fields are
      passed through `SWAP_ENDIAN` before use. */
  lemma SwapOfLittleIsBig(s: seq<Byte>, off: nat)
    requires off + 4 <= |s|
    ensures SwapEndian(Le32At(s, off)) == Be32At(s, off)
  {
    SwapOfLe32(s[off], s[off + 1], s[off + 2], s[off + 3]);
  }

  /** `SWAP_ENDIAN` of a word is the big-endian reading of its bytes taken
      in the order the target stores them. */
  lemma SwapIsBigReading(x: bv32)
    ensures SwapEndian(x) == Be32(ByteOf(x, 0), ByteOf(x, 1), ByteOf(x, 2), ByteOf(x, 3))
  {
    WordOfBytes(x);
    SwapOfLe32(ByteOf(x, 0), ByteOf(x, 1), ByteOf(x, 2), ByteOf(x, 3));
  }

  /** A word is the little-endian reading of its own bytes. */
  lemma WordOfBytes(x: bv32)
    ensures Le32(ByteOf(x, 0), ByteOf(x, 1), ByteOf(x, 2), ByteOf(x, 3)) == x
  {
  }

  lemma SwapOfLe32(b0: Byte, b1: Byte, b2: Byte, b3: Byte)
    ensures SwapEndian(Le32(b0, b1, b2, b3)) == Le32(b3, b2, b1, b0)
  {
  }

  /** Reading back the bytes of a word gives the word. */
  lemma Le32BytesRoundTrip(s: seq<Byte>, off: nat)
    requires off + 4 <= |s|
    ensures Le32Bytes(Le32At(s, off)) == s[off..off + 4]
  {
  }

  /** A word is read back from wherever its bytes are placed. */
  lemma Le32AtSlice(b: seq<Byte>, off: nat, x: bv32)
    requires off + 4 <= |b| && b[off..off + 4] == Le32Bytes(x)
    ensures Le32At(b, off) == x
  {
    var s := b[off..off + 4];
    assert b[off] == s[0] && b[off + 1] == s[1] && b[off + 2] == s[2] && b[off + 3] == s[3];
  }

  lemma Le16AtSlice(b: seq<Byte>, off: nat, x: bv16)
    requires off + 2 <= |b| && b[off..off + 2] == Le16Bytes(x)
    ensures Le16At(b, off) == x
  {
    var s := b[off..off + 2];
    assert b[off] == s[0] && b[off + 1] == s[1];
  }

  lemma Le16BytesRoundTrip(s: seq<Byte>, off: nat)
    requires off + 2 <= |s|
    ensures Le16Bytes(Le16At(s, off)) == s[off..off + 2]
  {
  }
}

=== FILE: spu_regs.dfy ===
/** An abstract shadow of the SPU registers and commands the streaming code
    touches: the IRQ-enable latch in SPU_CTRL, the IRQ address, the per-voice
    start/loop addresses, pitch, envelope and volume, the key-on/key-off
    commands and the DMA uploads into SPU RAM. Addresses are kept in bytes. */
module SpuRegs {

  /** The SPU has 24 voices. */
  const NUM_VOICES: nat := 24
  const ALL_VOICES: bv32 := 0x00ff_ffff

  /** psxspu's 16-byte silent sample, which idle voices are pointed at. */
  const DUMMY_BLOCK_ADDR: int := 0x1000
  const DUMMY_BLOCK_SIZE: int := 16
  /** The first byte after the capture buffers and the dummy sample. */
  const BUFFER_START_ADDR: int := 0x1010

  /** Bit 6 of SPU_CTRL enables the SPU IRQ. */
  const IRQ_ENABLE: bv16 := 1 << 6

  /** The pitch `reset_spu_channels` gives every voice. */
  const RESET_PITCH: bv16 := 0x1000

  /** A pitch register: a raw value, or the value the SDK derives from a
      sample rate in hertz (the conversion itself is library code). */
  datatype Pitch = Raw(reg: bv16) | ForRate(hz: int)

  datatype Envelope = Envelope(adsr1: bv16, adsr2: bv16)

  datatype Volume = Volume(left: bv16, right: bv16)

  /** `SpuSetKey(0, mask)` / `SpuSetKey(1, mask)`. */
  datatype KeyCmd = KeyOff(mask: bv32) | KeyOn(mask: bv32)

  /** An upload of `length` payload bytes from `offset` to SPU RAM at `dest`. */
  datatype Transfer = Transfer(dest: int, offset: int, length: int)

  /** Voice registers are maps from voice index. Entries 0 to 23 are the
      SPU's voices; a loop over more channels than that writes entries past
      them, which stand for register writes the device does not define. */
  datatype Regs = Regs(
    ctrl: bv16,
    irqAddr: int,
    voiceAddr: map<nat, int>,
    loopAddr: map<nat, int>,
    pitch: map<nat, Pitch>,
    envelope: map<nat, Envelope>,
    volume: map<nat, Volume>,
    keys: seq<KeyCmd>,
    transfers: seq<Transfer>)

  predicate IrqArmed(r: Regs) {
    r.ctrl & IRQ_ENABLE != 0
  }

  /** `SPU_CTRL &= ~(1 << 6)`. */
  function Disarm(r: Regs): (t: Regs)
    ensures !IrqArmed(t)
    ensures t.ctrl | IRQ_ENABLE == r.ctrl | IRQ_ENABLE
    ensures t == r.(ctrl := t.ctrl)
  {
    r.(ctrl := r.ctrl & !IRQ_ENABLE)
  }

  /** `SPU_CTRL |= 1 << 6`. */
  function Arm(r: Regs): (t: Regs)
    ensures IrqArmed(t)
    ensures t.ctrl & !IRQ_ENABLE == r.ctrl & !IRQ_ENABLE
    ensures t == r.(ctrl := t.ctrl)
  {
    r.(ctrl := r.ctrl | IRQ_ENABLE)
  }

  /** Arming and disarming only ever move bit 6: each undoes the other. */
  lemma ArmDisarmInverse(r: Regs)
    ensures IrqArmed(r) ==> Arm(Disarm(r)) == r
    ensures !IrqArmed(r) ==> Disarm(Arm(r)) == r
  {
  }

  /** Voices `0 .. n-1` of `m` hold `base + stride * i`: `n` blocks of
      `stride` bytes laid end to end from `base`. */
  ghost predicate Striped(m: map<nat, int>, n: int, base: int, stride: int) {
    forall i: nat :: i < n ==> i in m && m[i] == base + stride * i
  }

  /** Voices `0 .. n-1` of `m` hold `v`. */
  ghost predicate Filled<V>(m: map<nat, V>, n: int, v: V) {
    forall i: nat :: i < n ==> i in m && m[i] == v
  }

  /** From voice `n` on, `m'` is `m`. */
  ghost predicate KeptFrom<V>(m': map<nat, V>, m: map<nat, V>, n: int) {
    && (forall i: nat :: n <= i ==> (i in m' <==> i in m))
    && (forall i: nat :: n <= i && i in m ==> m'[i] == m[i])
  }

  /** Keeping the voices from `n` on is transitive. */
  lemma KeptFromTrans<V>(a: map<nat, V>, b: map<nat, V>, c: map<nat, V>, n: int)
    requires KeptFrom(a, b, n) && KeptFrom(b, c, n)
    ensures KeptFrom(a, c, n)
  {
  }

  /** Two maps striped the same way below `n` and kept from the same map
      above it are equal. */
  lemma StripedKeptEqual(a: map<nat, int>, b: map<nat, int>, m: map<nat, int>, n: int, base: int, stride: int)
    requires Striped(a, n, base, stride) && KeptFrom(a, m, n)
    requires Striped(b, n, base, stride) && KeptFrom(b, m, n)
    ensures a == b
  {
    forall i: nat
      ensures i in a <==> i in b
      ensures i in a ==> a[i] == b[i]
    {
    }
    assert a.Keys == b.Keys;
  }

  /** Voices `0 .. n-1` of `m` set to `base + stride * i`, the others kept. */
  function Stripe(m: map<nat, int>, n: int, base: int, stride: int): (r: map<nat, int>)
    ensures Striped(r, n, base, stride)
    ensures KeptFrom(r, m, n)
  {
    m + map i: nat | i < n :: base + stride * i
  }

  /** Voices `0 .. n-1` of `m` set to `v`, the others kept. */
  function Fill<V>(m: map<nat, V>, n: int, v: V): (r: map<nat, V>)
    ensures Filled(r, n, v)
    ensures KeptFrom(r, m, n)
    decreases n
  {
    if n <= 0 then m else Fill(m, n - 1, v)[n - 1 := v]
  }

  /** The key bit of voice `i`. */
  function VoiceBit(i: nat): bv32
    requires i < 32
  {
    1 << i
  }

  /** A shift count `24 - channels` that C defines for an `int`. */
  predicate MaskDefined(channels: int) {
    0 <= 24 - channels < 32
  }

  /** `0x00ffffff >> (24 - channels)`: the key mask of the stream's voices. */
  function ChannelMask(channels: int): (bits: bv32)
    requires MaskDefined(channels)
    ensures forall i: nat :: i < 32 ==> (bits & VoiceBit(i) != 0 <==> i < channels)
  {
    ALL_VOICES >> (24 - channels)
  }
}

=== FILE: stream.dfy ===
/** The streaming engine of src/spu.c: `stream_ctx` and the hardware it drives
    form one immutable `System`, and each interrupt handler and control
    operation is a transition from one `System` to the next. */
module Stream {
  import opened CInt
  import opened Endian
  import opened VagHeader
  import opened SpuRegs
  import opened Arith

  /** `StreamContext` (inc/spu.h). `payload` stands for what the `data` field addresses:
      the bytes of the asset from the end of the header region on. The two
      8-bit flags keep their C width; the `int` fields are unbounded here. */
  datatype Context = Context(
    payload: seq<Byte>,
    bufferSize: int,
    numChunks: int,
    sampleRate: int,
    channels: int,
    nextChunk: int,
    spuAddr: int,
    dbActive: bv8,
    buffering: bv8)

  /** The stream context together with the shadow of the SPU registers. */
  datatype System = System(ctx: Context, hw: Regs)

  /** The two ways `init_stream` divides by zero. */
  datatype InitError =
    | ZeroInterleave  // `interleave == 0`: the chunk count divides by it
    | NoChunks        // zero chunks: the priming IRQ step takes a remainder by it

  datatype Result<T> = Success(value: T) | Failure(error: InitError)

  predicate IsFlag(f: bv8) {
    f == 0 || f == 1
  }

  /** Bytes of one chunk: one interleave block per channel. */
  function ChunkSize(c: Context): int {
    c.bufferSize * c.channels
  }

  /** The SPU RAM address of the double-buffer slot selected by `parity`. */
  function SlotAddr(c: Context, parity: bv8): int {
    BUFFER_START_ADDR + (if parity != 0 then ChunkSize(c) else 0)
  }

  /** The fields `init_stream` derives from the header and nothing changes. */
  predicate SameGeometry(a: Context, b: Context) {
    && a.payload == b.payload
    && a.bufferSize == b.bufferSize
    && a.numChunks == b.numChunks
    && a.sampleRate == b.sampleRate
    && a.channels == b.channels
  }

  /** The contexts a successful `init_stream` of an in-range header leads to:
      positive geometry, the cursor at most one step before chunk 0, and the
      flags holding 0 or 1. */
  predicate Valid(c: Context) {
    && 0 < c.bufferSize
    && 0 < c.numChunks < TWO_31
    && 1 <= c.channels
    && -1 <= c.nextChunk < c.numChunks
    && IsFlag(c.dbActive)
    && IsFlag(c.buffering)
  }

  /** `(next_chunk + 1) % (uint32_t) num_chunks`, stored back in an `int`:
      both operands are converted to `uint32_t` before the remainder. */
  function NextCursor(next: int, numChunks: int): (chunk: int)
    requires ToU32(numChunks) != 0
    ensures IsInt32(chunk)
    ensures -1 <= next < numChunks < TWO_31 ==>
              0 <= chunk < numChunks && chunk == (if next + 1 == numChunks then 0 else next + 1)
    ensures next == -1 ==> chunk == 0
  {
    var m := ToU32(numChunks);
    assert next == -1 ==> ToU32(next + 1) % m == 0 by {
      if next == -1 {
        assert ToU32(next + 1) == 0;
        ZeroMod(m);
      }
    }
    assert -1 <= next < numChunks < TWO_31 ==>
             ToU32(next + 1) % m == (if next + 1 == numChunks then 0 else next + 1) by {
      if -1 <= next < numChunks < TWO_31 {
        WrapSucc(next, numChunks);
      }
    }
    ToI32(ToU32(next + 1) % m)
  }

  lemma ZeroMod(m: int)
    requires m > 0
    ensures 0 % m == 0
  {
  }

  /** The context half of `spu_irq_handler`: step the cursor, flip the
      double-buffer parity, mark a load in flight and select the slot the
      parity names. */
  function Advance(c: Context): (d: Context)
    requires ToU32(c.numChunks) != 0
    ensures SameGeometry(c, d)
    ensures Valid(c) ==>
              && Valid(d)
              && 0 <= d.nextChunk
              && d.nextChunk == (if c.nextChunk + 1 == c.numChunks then 0 else c.nextChunk + 1)
    ensures IsFlag(c.dbActive) ==> IsFlag(d.dbActive) && d.dbActive != c.dbActive
    ensures d.buffering == 1
    ensures d.spuAddr == SlotAddr(d, d.dbActive)
  {
    var db := c.dbActive ^ 1;
    c.(dbActive := db, buffering := 1,
       nextChunk := NextCursor(c.nextChunk, c.numChunks),
       spuAddr := BUFFER_START_ADDR + (if db != 0 then ChunkSize(c) else 0))
  }

  /** `spu_irq_handler`: acknowledge the IRQ by disabling it, advance the
      context, point the IRQ and every stream voice's loop address at the
      slot now being filled, and start uploading the chunk under the cursor
      into that slot. */
  function IrqStep(s: System): (t: System)
    requires ToU32(s.ctx.numChunks) != 0
    ensures t.ctx == Advance(s.ctx)
    ensures !IrqArmed(t.hw) && t.hw.ctrl | IRQ_ENABLE == s.hw.ctrl | IRQ_ENABLE
    ensures t.hw.irqAddr == t.ctx.spuAddr
    ensures Striped(t.hw.loopAddr, t.ctx.channels, t.ctx.spuAddr, t.ctx.bufferSize)
    ensures KeptFrom(t.hw.loopAddr, s.hw.loopAddr, t.ctx.channels)
    ensures t.hw.transfers == s.hw.transfers +
              [Transfer(t.ctx.spuAddr, t.ctx.nextChunk * ChunkSize(t.ctx), ChunkSize(t.ctx))]
    ensures t.hw == s.hw.(ctrl := t.hw.ctrl, irqAddr := t.hw.irqAddr,
                          loopAddr := t.hw.loopAddr, transfers := t.hw.transfers)
  {
    var hw := Disarm(s.hw);
    var ctx := Advance(s.ctx);
    var chunkSize := ChunkSize(ctx);
    System(ctx, hw.(irqAddr := ctx.spuAddr,
                    loopAddr := Stripe(hw.loopAddr, ctx.channels, ctx.spuAddr, ctx.bufferSize),
                    transfers := hw.transfers + [Transfer(ctx.spuAddr, ctx.nextChunk * chunkSize, chunkSize)]))
  }

  /** `spu_dma_handler`: the upload has finished, so re-enable the IRQ and
      clear the in-flight flag. */
  function DmaStep(s: System): (t: System)
    ensures IrqArmed(t.hw) && t.hw.ctrl & !IRQ_ENABLE == s.hw.ctrl & !IRQ_ENABLE
    ensures t.ctx.buffering == 0
    ensures t.ctx == s.ctx.(buffering := t.ctx.buffering)
    ensures t.hw == s.hw.(ctrl := t.hw.ctrl)
  {
    System(s.ctx.(buffering := 0), Arm(s.hw))
  }

  /** `reset_spu_channels`: key every voice off, park it on the dummy block
      at the reset pitch, and key it on again so it keeps playing silence. */
  function ResetChannels(r: Regs): (t: Regs)
    ensures Filled(t.voiceAddr, NUM_VOICES, DUMMY_BLOCK_ADDR) && KeptFrom(t.voiceAddr, r.voiceAddr, NUM_VOICES)
    ensures Filled(t.pitch, NUM_VOICES, Raw(RESET_PITCH)) && KeptFrom(t.pitch, r.pitch, NUM_VOICES)
    ensures t.keys == r.keys + [KeyOff(ALL_VOICES), KeyOn(ALL_VOICES)]
    ensures t == r.(voiceAddr := t.voiceAddr, pitch := t.pitch, keys := t.keys)
  {
    var off := r.(keys := r.keys + [KeyOff(ALL_VOICES)]);
    var parked := off.(voiceAddr := Fill(off.voiceAddr, NUM_VOICES, DUMMY_BLOCK_ADDR),
                       pitch := Fill(off.pitch, NUM_VOICES, Raw(RESET_PITCH)));
    parked.(keys := parked.keys + [KeyOn(ALL_VOICES)])
  }

  /** The chunk count of `init_stream`, `(size + interleave - 1) / interleave`
      evaluated in `uint32_t`. It is the ceiling of `size / interleave` unless
      the sum wraps past 2^32; the wrapped sum is then below the interleave,
      so the count is 0. */
  function ChunkCount(size: int, interleave: int): (n: int)
    requires 0 <= size < TWO_32 && 0 < interleave < TWO_32
    ensures 0 <= n < TWO_32
    ensures size + interleave - 1 < TWO_32 ==> (n - 1) * interleave < size <= n * interleave
    ensures TWO_32 <= size + interleave - 1 ==> n * interleave < size
    ensures TWO_32 <= size + interleave - 1 ==> n == 0
  {
    var sum := ToU32(ToU32(size + interleave) - 1);
    if size + interleave - 1 < TWO_32 then
      assert sum == size + interleave - 1;
      CeilDivBounds(size, interleave);
      sum / interleave
    else
      assert sum == size + interleave - 1 - TWO_32;
      DivBelow(sum, interleave);
      DivSmall(sum, interleave);
      sum / interleave
  }

  /** The context `init_stream` builds before priming, from the header's
      interleave, payload size (already swapped), swapped sample rate and
      channel count: parity 1 and the cursor one step before chunk 0. */
  function SeedContext(c: Context, payload: seq<Byte>, interleave: int, size: int, rate: int, channels: int): (r: Context)
    requires 0 < interleave < TWO_32 && 0 <= size < TWO_32 && 0 <= rate < TWO_32
    ensures r.payload == payload && r.channels == channels
    ensures r.bufferSize == ToI32(interleave)
    ensures ToU32(r.numChunks) == ChunkCount(size, interleave)
    ensures r.numChunks == ToI32(ChunkCount(size, interleave))
    ensures r.sampleRate == ToI32(rate)
    ensures r.nextChunk == -1 && r.dbActive == 1
    ensures r.spuAddr == c.spuAddr && r.buffering == c.buffering
  {
    c.(payload := payload,
       bufferSize := ToI32(interleave),
       numChunks := ToI32(ChunkCount(size, interleave)),
       sampleRate := ToI32(rate),
       channels := channels,
       dbActive := 1,
       nextChunk := -1)
  }

  /** The priming at the end of `init_stream`: one IRQ step by hand, then the
      busy-wait, which ends when the DMA completion handler has run. From the
      seed it loads chunk 0 into the first slot and leaves the IRQ armed. */
  function Prime(s: System): (t: System)
    requires ToU32(s.ctx.numChunks) != 0
    requires s.ctx.nextChunk == -1 && s.ctx.dbActive == 1
    ensures SameGeometry(s.ctx, t.ctx)
    ensures t.ctx.nextChunk == 0 && t.ctx.dbActive == 0
    ensures t.ctx.spuAddr == BUFFER_START_ADDR && t.ctx.buffering == 0
    ensures IrqArmed(t.hw) && t.hw.irqAddr == BUFFER_START_ADDR
    ensures Striped(t.hw.loopAddr, t.ctx.channels, BUFFER_START_ADDR, t.ctx.bufferSize)
    ensures t.hw.transfers == s.hw.transfers + [Transfer(BUFFER_START_ADDR, 0, ChunkSize(s.ctx))]
    ensures t.hw.ctrl == s.hw.ctrl | IRQ_ENABLE
    ensures KeptFrom(t.hw.loopAddr, s.hw.loopAddr, s.ctx.channels)
    ensures t.hw == s.hw.(ctrl := t.hw.ctrl, irqAddr := t.hw.irqAddr,
                          loopAddr := t.hw.loopAddr, transfers := t.hw.transfers)
  {
    DmaStep(IrqStep(s))
  }

  /** `init_stream`: derive the geometry from the header, seed the cursor one
      step before chunk 0 with parity 1, and prime the first slot with one IRQ
      step followed by its DMA completion (the busy-wait's exit). */
  function InitStream(s: System, asset: seq<Byte>): (r: Result<System>)
    requires |asset| >= HEADER_REGION
    ensures var h := Parse(asset);
              r.Failure? <==> Interleave(h) == 0 || ChunkCount(PayloadSize(h), Interleave(h)) == 0
    ensures Interleave(Parse(asset)) == 0 ==> r == Failure(ZeroInterleave)
    ensures Interleave(Parse(asset)) != 0 && ChunkCount(PayloadSize(Parse(asset)), Interleave(Parse(asset))) == 0 ==>
              r == Failure(NoChunks)
    ensures r.Success? ==>
              var h := Parse(asset);
              var c := r.value.ctx;
              && c.payload == asset[HEADER_REGION..]
              && c.bufferSize == ToI32(Interleave(h))
              && ToU32(c.numChunks) == ChunkCount(PayloadSize(h), Interleave(h))
              && c.numChunks == ToI32(ChunkCount(PayloadSize(h), Interleave(h)))
              && c.sampleRate == ToI32(SampleRate(h))
              && c.channels == ChannelCount(h)
    ensures r.Success? ==>
              var c := r.value.ctx;
              && c.nextChunk == 0
              && c.dbActive == 0
              && c.spuAddr == BUFFER_START_ADDR
              && c.buffering == 0
              && IrqArmed(r.value.hw)
              && r.value.hw.irqAddr == BUFFER_START_ADDR
              && Striped(r.value.hw.loopAddr, c.channels, BUFFER_START_ADDR, c.bufferSize)
              && r.value.hw.transfers == s.hw.transfers + [Transfer(BUFFER_START_ADDR, 0, ChunkSize(c))]
    ensures r.Success? ==>
              var t := r.value.hw;
              && t.ctrl == s.hw.ctrl | IRQ_ENABLE
              && KeptFrom(t.loopAddr, s.hw.loopAddr, r.value.ctx.channels)
              && t == s.hw.(ctrl := t.ctrl, irqAddr := t.irqAddr, loopAddr := t.loopAddr, transfers := t.transfers)
  {
    var h := Parse(asset);
    var bufSize := Interleave(h);
    var size := PayloadSize(h);
    if bufSize == 0 then Failure(ZeroInterleave)
    else if ChunkCount(size, bufSize) == 0 then Failure(NoChunks)
    else
      var ctx := SeedContext(s.ctx, asset[HEADER_REGION..], bufSize, size, SampleRate(h), ChannelCount(h));
      Success(Prime(System(ctx, s.hw)))
  }

  /** The per-voice settings `start_stream` writes. */
  const STREAM_ENVELOPE: Envelope := Envelope(0x00ff, 0x0000)
  const LEFT_VOLUME: Volume := Volume(0x3fff, 0x0000)
  const RIGHT_VOLUME: Volume := Volume(0x0000, 0x3fff)

  /** `start_stream`: disable the IRQ, point each stream voice at its block
      of the slot primed last, set pitch and envelope, route voices 0 and 1
      to the left and right, key the stream's voices on, and run one more
      IRQ step by hand. */
  function StartStream(s: System): (t: System)
    requires MaskDefined(s.ctx.channels)
    requires ToU32(s.ctx.numChunks) != 0
    ensures t.ctx == Advance(s.ctx)
    ensures !IrqArmed(t.hw) && t.ctx.buffering == 1
    ensures t.hw.irqAddr == t.ctx.spuAddr
    ensures Striped(t.hw.loopAddr, t.ctx.channels, t.ctx.spuAddr, t.ctx.bufferSize)
    ensures Striped(t.hw.voiceAddr, s.ctx.channels, s.ctx.spuAddr, s.ctx.bufferSize)
    ensures KeptFrom(t.hw.voiceAddr, s.hw.voiceAddr, s.ctx.channels)
    ensures Filled(t.hw.pitch, s.ctx.channels, ForRate(s.ctx.sampleRate))
    ensures Filled(t.hw.envelope, s.ctx.channels, STREAM_ENVELOPE)
    ensures KeptFrom(t.hw.pitch, s.hw.pitch, s.ctx.channels)
    ensures KeptFrom(t.hw.envelope, s.hw.envelope, s.ctx.channels)
    ensures KeptFrom(t.hw.loopAddr, s.hw.loopAddr, s.ctx.channels)
    ensures 0 in t.hw.volume && t.hw.volume[0] == LEFT_VOLUME
    ensures 1 in t.hw.volume && t.hw.volume[1] == RIGHT_VOLUME
    ensures t.hw.volume == s.hw.volume[0 := LEFT_VOLUME][1 := RIGHT_VOLUME]
    ensures t.hw.ctrl | IRQ_ENABLE == s.hw.ctrl | IRQ_ENABLE
    ensures t.hw.keys == s.hw.keys + [KeyOn(ChannelMask(s.ctx.channels))]
    ensures t.hw.transfers == s.hw.transfers +
              [Transfer(t.ctx.spuAddr, t.ctx.nextChunk * ChunkSize(t.ctx), ChunkSize(t.ctx))]
  {
    var c := s.ctx;
    var bits := ChannelMask(c.channels);
    var hw := Disarm(s.hw);
    var hw := hw.(
      voiceAddr := Stripe(hw.voiceAddr, c.channels, c.spuAddr, c.bufferSize),
      pitch := Fill(hw.pitch, c.channels, ForRate(c.sampleRate)),
      envelope := Fill(hw.envelope, c.channels, STREAM_ENVELOPE));
    var hw := hw.(volume := hw.volume[0 := LEFT_VOLUME][1 := RIGHT_VOLUME]);
    var hw := hw.(keys := hw.keys + [KeyOn(bits)]);
    IrqStep(System(c, hw))
  }

  /** `stop_stream`: key the stream's voices off, park them on the dummy
      block, and key them on again so they idle on silence. The context is
      left alone, so a later start resumes from the same cursor. */
  function StopStream(s: System): (t: System)
    requires MaskDefined(s.ctx.channels)
    ensures t.ctx == s.ctx
    ensures Filled(t.hw.voiceAddr, s.ctx.channels, DUMMY_BLOCK_ADDR)
    ensures KeptFrom(t.hw.voiceAddr, s.hw.voiceAddr, s.ctx.channels)
    ensures t.hw.keys == s.hw.keys + [KeyOff(ChannelMask(s.ctx.channels)), KeyOn(ChannelMask(s.ctx.channels))]
    ensures t.hw == s.hw.(voiceAddr := t.hw.voiceAddr, keys := t.hw.keys)
  {
    var bits := ChannelMask(s.ctx.channels);
    var hw := s.hw.(keys := s.hw.keys + [KeyOff(bits)]);
    var hw := hw.(voiceAddr := Fill(hw.voiceAddr, s.ctx.channels, DUMMY_BLOCK_ADDR));
    System(s.ctx, hw.(keys := hw.keys + [KeyOn(bits)]))
  }
}

=== FILE: stream_props.dfy ===
/** Properties of the streaming state machine across several transitions:
    the invariant every operation keeps, the cyclic chunk schedule, the
    double-buffer discipline and the bounds of each upload. */
module StreamProps {
  import opened CInt
  import opened Endian
  import opened VagHeader
  import opened SpuRegs
  import opened Stream
  import opened Arith

  /** What holds between operations once the stream is initialised: the slot
      addressed by the parity is the one holding the chunk under the cursor,
      the IRQ watches the start of that slot, every stream voice loops into
      it, and the IRQ is disabled exactly while an upload is in flight. */
  ghost predicate Inv(s: System) {
    && Valid(s.ctx)
    && 0 <= s.ctx.nextChunk
    && s.ctx.spuAddr == SlotAddr(s.ctx, s.ctx.dbActive)
    && s.hw.irqAddr == s.ctx.spuAddr
    && (s.ctx.buffering == 1 <==> !IrqArmed(s.hw))
    && Striped(s.hw.loopAddr, s.ctx.channels, s.ctx.spuAddr, s.ctx.bufferSize)
    && |s.hw.transfers| > 0
    && s.hw.transfers[|s.hw.transfers| - 1] ==
         Transfer(s.ctx.spuAddr, s.ctx.nextChunk * ChunkSize(s.ctx), ChunkSize(s.ctx))
  }

  /** A header whose interleave and chunk count fit an `int`. */
  predicate InRange(h: Header) {
    && 0 < Interleave(h) < TWO_31
    && 0 < ChunkCount(PayloadSize(h), Interleave(h)) < TWO_31
  }

  /** A successful `init_stream` of an in-range header establishes the
      invariant. */
  lemma InitEstablishesInv(s: System, asset: seq<Byte>)
    requires |asset| >= HEADER_REGION
    requires InRange(Parse(asset))
    ensures InitStream(s, asset).Success?
    ensures Inv(InitStream(s, asset).value)
  {
    var h := Parse(asset);
    var c := InitStream(s, asset).value.ctx;
    assert c.bufferSize == Interleave(h) && c.numChunks == ChunkCount(PayloadSize(h), Interleave(h)) by {
      InitGeometry(s, asset);
    }
  }

  /** A header whose size and interleave wrap the `uint32_t` sum of the
      chunk count gets no chunks, so `init_stream` fails: in C the priming
      IRQ step takes a remainder by zero. */
  lemma WrappedSizeFailsInit(s: System, asset: seq<Byte>)
    requires |asset| >= HEADER_REGION && Interleave(Parse(asset)) != 0
    requires TWO_32 <= PayloadSize(Parse(asset)) + Interleave(Parse(asset)) - 1
    ensures InitStream(s, asset) == Failure(NoChunks)
  {
  }

  /** The geometry of an in-range header reaches the context unchanged:
      neither `int` conversion wraps. */
  lemma InitGeometry(s: System, asset: seq<Byte>)
    requires |asset| >= HEADER_REGION
    requires InRange(Parse(asset))
    ensures InitStream(s, asset).Success?
    ensures var h, c := Parse(asset), InitStream(s, asset).value.ctx;
      && c.bufferSize == Interleave(h)
      && c.numChunks == ChunkCount(PayloadSize(h), Interleave(h))
  {
    var h, c := Parse(asset), InitStream(s, asset).value.ctx;
    Int32RoundTrip(c.numChunks);
  }

  lemma IrqStepKeepsInv(s: System)
    requires Inv(s)
    ensures Inv(IrqStep(s))
  {
  }

  lemma DmaStepKeepsInv(s: System)
    requires Inv(s)
    ensures Inv(DmaStep(s))
  {
  }

  lemma StartKeepsInv(s: System)
    requires Inv(s) && s.ctx.channels <= NUM_VOICES
    ensures Inv(StartStream(s))
  {
  }

  lemma StopKeepsInv(s: System)
    requires Inv(s) && s.ctx.channels <= NUM_VOICES
    ensures Inv(StopStream(s))
  {
  }

  lemma ResetKeepsInv(s: System)
    requires Inv(s)
    ensures Inv(System(s.ctx, ResetChannels(s.hw)))
  {
  }

  /** Byte ranges `[a, a + len)` and `[b, b + len)` do not overlap. */
  predicate Disjoint(a: int, b: int, len: int) {
    a + len <= b || b + len <= a
  }

  /** The double-buffer discipline: each IRQ step uploads into the slot
      other than the one the previous step filled (which is the one now
      playing), the two slots do not overlap, and both lie above the
      dummy block. This holds for a single-chunk stream too. */
  lemma UploadAvoidsPlayingSlot(s: System)
    requires Inv(s)
    ensures var t := IrqStep(s);
      && t.ctx.spuAddr != s.ctx.spuAddr
      && Disjoint(t.ctx.spuAddr, s.ctx.spuAddr, ChunkSize(s.ctx))
      && {t.ctx.spuAddr, s.ctx.spuAddr} == {SlotAddr(s.ctx, 0), SlotAddr(s.ctx, 1)}
      && DUMMY_BLOCK_ADDR + DUMMY_BLOCK_SIZE <= t.ctx.spuAddr
      && DUMMY_BLOCK_ADDR + DUMMY_BLOCK_SIZE <= s.ctx.spuAddr
  {
    assert 0 < ChunkSize(s.ctx) by { PositiveProduct(s.ctx.bufferSize, s.ctx.channels); }
  }

  /** `start_stream` points the voices at the slot primed last and uploads
      the next chunk into the other one. */
  lemma StartPlaysOneSlotFillsOther(s: System)
    requires Inv(s) && s.ctx.channels <= NUM_VOICES
    ensures var t := StartStream(s);
      && Disjoint(t.ctx.spuAddr, s.ctx.spuAddr, ChunkSize(s.ctx))
      && Striped(t.hw.voiceAddr, s.ctx.channels, s.ctx.spuAddr, s.ctx.bufferSize)
  {
    UploadAvoidsPlayingSlot(s);
  }

  /** One position IRQ followed by the DMA completion of its upload. */
  function Cycle(s: System): (t: System)
    requires ToU32(s.ctx.numChunks) != 0
    ensures t.ctx == Advance(s.ctx).(buffering := 0)
    ensures t.hw.transfers == s.hw.transfers +
              [Transfer(SlotAddr(t.ctx, t.ctx.dbActive), t.ctx.nextChunk * ChunkSize(t.ctx), ChunkSize(t.ctx))]
  {
    DmaStep(IrqStep(s))
  }

  /** `k` position IRQs, each followed by its DMA completion. */
  function Run(s: System, k: nat): (t: System)
    requires ToU32(s.ctx.numChunks) != 0
    ensures SameGeometry(s.ctx, t.ctx)
    ensures |t.hw.transfers| == |s.hw.transfers| + k
    decreases k
  {
    if k == 0 then s else Cycle(Run(s, k - 1))
  }

  /** The `j`-th upload counted from the seed of `init_stream`: chunk
      `j mod numChunks` into slot `j mod 2`. */
  function Load(c: Context, j: nat): Transfer
    requires 0 < c.numChunks
  {
    Transfer(SlotAddr(c, if j % 2 == 0 then 0 else 1), (j % c.numChunks) * ChunkSize(c), ChunkSize(c))
  }

  /** The seed `init_stream` builds before priming. */
  predicate Seeded(c: Context) {
    Valid(c) && c.nextChunk == -1 && c.dbActive == 1
  }

  /** The context after `k` cycles: what `Run` does to the context alone. */
  function Steps(c: Context, k: nat): (d: Context)
    requires 0 < c.numChunks < TWO_31
    ensures SameGeometry(c, d)
    decreases k
  {
    if k == 0 then c else Advance(Steps(c, k - 1)).(buffering := 0)
  }

  /** The context half of a run depends on the context alone. */
  lemma {:induction false} RunContext(s: System, k: nat)
    requires 0 < s.ctx.numChunks < TWO_31
    ensures Run(s, k).ctx == Steps(s.ctx, k)
    decreases k
  {
    if k > 0 {
      RunContextPrev(s, k);
    }
  }

  /** The inductive step of `RunContext`. */
  lemma RunContextPrev(s: System, k: nat)
    requires 0 < s.ctx.numChunks < TWO_31 && 0 < k
    ensures Run(s, k).ctx == Steps(s.ctx, k)
    decreases k, 0
  {
    RunContext(s, k - 1);
    RunContextStep(s, k);
  }

  /** One more cycle of a run advances its context as `Steps` does. */
  lemma RunContextStep(s: System, k: nat)
    requires 0 < s.ctx.numChunks < TWO_31 && 0 < k
    requires Run(s, k - 1).ctx == Steps(s.ctx, k - 1)
    ensures Run(s, k).ctx == Steps(s.ctx, k)
  {
    assert Run(s, k) == Cycle(Run(s, k - 1));
  }

  /** From the seed, after `k > 0` steps the cursor names chunk
      `(k - 1) mod numChunks` and the parity has flipped `k` times. */
  lemma {:induction false} SeededCursor(c: Context, k: nat)
    requires Seeded(c)
    ensures Valid(Steps(c, k))
    ensures 0 < k ==> Steps(c, k).nextChunk == (k - 1) % c.numChunks
    ensures Steps(c, k).dbActive == (if k % 2 == 1 then 0 else 1)
    ensures k == 0 || Steps(c, k).buffering == 0
    decreases k
  {
    if k > 0 {
      SeededCursor(c, k - 1);
      var p := Steps(c, k - 1);
      CursorStep(p, c.numChunks, k);
      ParityStep(p, k);
    }
  }

  /** Step `k` of the schedule moves the cursor from chunk `(k - 2) mod n`
      (or the seed's -1) to chunk `(k - 1) mod n`. */
  lemma CursorStep(c: Context, n: int, k: nat)
    requires Valid(c) && c.numChunks == n && 0 < k
    requires k == 1 ==> c.nextChunk == -1
    requires k > 1 ==> c.nextChunk == (k - 2) % n
    ensures Valid(Advance(c))
    ensures Advance(c).nextChunk == (k - 1) % n
  {
    AdvanceWraps(c);
    if k == 1 {
      ModUnique(0, n, 0, 0);
    } else {
      ModSucc(k - 2, n);
    }
  }

  /** On a valid context the cursor step is the remainder the C code takes:
      `(next_chunk + 1) % num_chunks`. */
  lemma AdvanceWraps(c: Context)
    requires Valid(c)
    ensures Advance(c).nextChunk == (c.nextChunk + 1) % c.numChunks
  {
    WrapSucc(c.nextChunk, c.numChunks);
  }

  /** Step `k` of the schedule flips the parity. */
  lemma ParityStep(c: Context, k: nat)
    requires Valid(c) && 0 < k
    requires c.dbActive == (if (k - 1) % 2 == 1 then 0 else 1)
    ensures Advance(c).dbActive == (if k % 2 == 1 then 0 else 1)
  {
  }

  /** Step `k` from the seed appends upload `k - 1` of the schedule. */
  lemma SeededStep(s: System, k: nat)
    requires Seeded(s.ctx) && 0 < k
    ensures Run(s, k).hw.transfers == Run(s, k - 1).hw.transfers + [Load(s.ctx, k - 1)]
  {
    assert Run(s, k) == Cycle(Run(s, k - 1));
    RunContext(s, k);
    SeededCursor(s.ctx, k);
    LoadOf(s.ctx, Steps(s.ctx, k), k);
  }

  /** The context step `k` leaves, at cursor `(k - 1) mod n` and with the
      parity flipped `k` times from the seed, uploads load `k - 1`. */
  lemma LoadOf(c: Context, d: Context, k: nat)
    requires SameGeometry(c, d) && 0 < c.numChunks && 0 < k
    requires d.nextChunk == (k - 1) % c.numChunks
    requires d.dbActive == (if k % 2 == 1 then 0 else 1)
    ensures Transfer(SlotAddr(d, d.dbActive), d.nextChunk * ChunkSize(d), ChunkSize(d)) == Load(c, k - 1)
  {
    assert ChunkSize(c) == ChunkSize(d);
    assert (k - 1) % 2 == 0 <==> k % 2 == 1;
  }

  /** From position `m` on, `log` holds uploads `0 .. k-1` of the schedule. */
  predicate FollowsSchedule(log: seq<Transfer>, m: nat, c: Context, k: nat)
    requires 0 < c.numChunks
  {
    && m + k <= |log|
    && forall j: nat :: j < k ==> log[m + j] == Load(c, j)
  }

  /** Appending upload `k - 1` to a log that holds uploads `0 .. k-2` from
      position `m` on, and nothing after them, gives one that holds uploads
      `0 .. k-1`. */
  lemma ScheduleExtends(p: seq<Transfer>, m: nat, c: Context, k: nat)
    requires 0 < c.numChunks && 0 < k
    requires |p| == m + k - 1 && FollowsSchedule(p, m, c, k - 1)
    ensures FollowsSchedule(p + [Load(c, k - 1)], m, c, k)
  {
    var t := p + [Load(c, k - 1)];
    forall j: nat | j < k
      ensures t[m + j] == Load(c, j)
    {
      if j < k - 1 {
        assert t[m + j] == p[m + j];
      }
    }
  }

  /** From the seed, the uploads go through the chunks cyclically,
      `0, 1, …, numChunks-1, 0, …`, alternating between the two slots. */
  lemma {:induction false} SeededSchedule(s: System, k: nat)
    requires Seeded(s.ctx)
    ensures FollowsSchedule(Run(s, k).hw.transfers, |s.hw.transfers|, s.ctx, k)
    decreases k
  {
    if k > 0 {
      SeededScheduleStep(s, k);
    }
  }

  /** The inductive step of `SeededSchedule`. */
  lemma SeededScheduleStep(s: System, k: nat)
    requires Seeded(s.ctx) && 0 < k
    ensures FollowsSchedule(Run(s, k).hw.transfers, |s.hw.transfers|, s.ctx, k)
    decreases k, 0
  {
    SeededSchedule(s, k - 1);
    SeededStep(s, k);
    ScheduleExtends(Run(s, k - 1).hw.transfers, |s.hw.transfers|, s.ctx, k);
  }

  /** Step `numChunks + 1` from the seed reloads chunk 0: the cursor wraps
      around after the last chunk. */
  lemma WrapAround(s: System)
    requires Seeded(s.ctx)
    ensures Run(s, s.ctx.numChunks + 1).hw.transfers[|s.hw.transfers| + s.ctx.numChunks].offset == 0
  {
    var n := s.ctx.numChunks;
    SeededSchedule(s, n + 1);
    ModUnique(n, n, 1, 0);
    assert Load(s.ctx, n).offset == 0;
  }

  /** Priming is the first step of the schedule. */
  lemma PrimeIsFirstStep(s: System)
    requires Seeded(s.ctx)
    ensures Prime(s) == Run(s, 1)
  {
  }

  /** `start_stream` followed by the completion of its upload is one cycle
      of the schedule: the same context and the same upload. */
  lemma StartThenDmaIsCycle(s: System)
    requires MaskDefined(s.ctx.channels) && ToU32(s.ctx.numChunks) != 0
    ensures DmaStep(StartStream(s)).ctx == Cycle(s).ctx
    ensures DmaStep(StartStream(s)).hw.transfers == Cycle(s).hw.transfers
  {
  }

  /** The context `init_stream` seeds from an asset before priming. */
  function InitSeed(c: Context, asset: seq<Byte>): Context
    requires |asset| >= HEADER_REGION && 0 < Interleave(Parse(asset))
  {
    var h := Parse(asset);
    SeedContext(c, asset[HEADER_REGION..], Interleave(h), PayloadSize(h), SampleRate(h), ChannelCount(h))
  }

  /** `init_stream` of an in-range header is the first cycle of the schedule
      from its seed. */
  lemma InitIsFirstCycle(s: System, asset: seq<Byte>)
    requires |asset| >= HEADER_REGION && InRange(Parse(asset))
    requires IsFlag(s.ctx.buffering)
    ensures Seeded(InitSeed(s.ctx, asset))
    ensures InitStream(s, asset) == Success(Run(System(InitSeed(s.ctx, asset), s.hw), 1))
  {
    var c := InitSeed(s.ctx, asset);
    Int32RoundTrip(c.numChunks);
  }

  /** Running one cycle and then `k` more is running `k + 1`. */
  lemma {:induction false} RunAppend(x: System, k: nat)
    requires ToU32(x.ctx.numChunks) != 0
    ensures Run(Run(x, 1), k) == Run(x, k + 1)
    decreases k
  {
    if k > 0 {
      RunAppendStep(x, k);
    }
  }

  /** The inductive step of `RunAppend`. */
  lemma RunAppendStep(x: System, k: nat)
    requires ToU32(x.ctx.numChunks) != 0 && 0 < k
    ensures Run(Run(x, 1), k) == Run(x, k + 1)
    decreases k, 0
  {
    var y := Run(x, 1);
    RunAppend(x, k - 1);
    assert Run(y, k) == Cycle(Run(y, k - 1));
    assert Run(x, k + 1) == Cycle(Run(x, k));
  }

  /** From `init_stream` on, the uploads follow the schedule of its seed:
      after `k` further cycles the log holds uploads `0 .. k` of it. */
  lemma InitThenCycles(s: System, asset: seq<Byte>, k: nat)
    requires |asset| >= HEADER_REGION && InRange(Parse(asset))
    requires IsFlag(s.ctx.buffering)
    ensures InitStream(s, asset).Success?
    ensures FollowsSchedule(Run(InitStream(s, asset).value, k).hw.transfers, |s.hw.transfers|,
                            InitSeed(s.ctx, asset), k + 1)
  {
    var x := System(InitSeed(s.ctx, asset), s.hw);
    InitIsFirstCycle(s, asset);
    RunAppend(x, k);
    SeededSchedule(x, k + 1);
  }

  /** If the payload holds `numChunks` whole chunks (the header's size counts
      one channel), every upload reads inside the payload. The code does not
      check this. */
  lemma UploadStaysInPayload(s: System)
    requires Valid(s.ctx)
    requires s.ctx.numChunks * ChunkSize(s.ctx) <= |s.ctx.payload|
    ensures var tr := IrqStep(s).hw.transfers[|s.hw.transfers|];
      0 <= tr.offset && tr.offset + tr.length <= |s.ctx.payload|
  {
    var d := Advance(s.ctx);
    assert IrqStep(s).hw.transfers[|s.hw.transfers|] == Transfer(d.spuAddr, d.nextChunk * ChunkSize(d), ChunkSize(d));
    ChunkInPayload(d);
  }

  /** Chunk `c` of `n` whole chunks lies inside a payload that holds them. */
  lemma ChunkInPayload(c: Context)
    requires Valid(c) && 0 <= c.nextChunk
    requires c.numChunks * ChunkSize(c) <= |c.payload|
    ensures 0 <= c.nextChunk * ChunkSize(c)
    ensures c.nextChunk * ChunkSize(c) + ChunkSize(c) <= |c.payload|
  {
    var k, cs := c.nextChunk, ChunkSize(c);
    PositiveProduct(c.bufferSize, c.channels);
    assert k * cs + cs == (k + 1) * cs;
    MulMonotone(k + 1, c.numChunks, cs);
  }

  /** If instead the header's size counts all channels, the reads run past
      the payload: 88200 bytes of stereo at interleave 4096 give 22 chunks of
      8192 bytes, and chunk 11 already starts beyond the end. */
  lemma TotalSizeOverreads(s: System)
    requires s.ctx == Context(seq(88200, _ => 0), 4096, 22, 44100, 2, 10, BUFFER_START_ADDR, 0, 0)
    ensures ChunkCount(88200, 4096) == 22
    ensures var tr := IrqStep(s).hw.transfers[|s.hw.transfers|];
      tr.offset == 11 * 8192 && |s.ctx.payload| < tr.offset + tr.length
  {
  }

  /** `stop_stream` does not disturb the stream: a start after a stop
      produces the same context, voice addresses and uploads as a start
      without it. */
  lemma StopThenStart(s: System)
    requires MaskDefined(s.ctx.channels) && ToU32(s.ctx.numChunks) != 0
    ensures StartStream(StopStream(s)).ctx == StartStream(s).ctx
    ensures StartStream(StopStream(s)).hw.voiceAddr == StartStream(s).hw.voiceAddr
    ensures StartStream(StopStream(s)).hw.transfers == StartStream(s).hw.transfers
  {
    var x := StopStream(s);
    assert x.ctx == s.ctx && x.hw.transfers == s.hw.transfers;
    IrqStepReadsOnlyContext(x, s);
    StartVoicesAfterStop(s);
  }

  /** The voice addresses `start_stream` leaves behind do not depend on the
      ones `stop_stream` parked on the dummy block. */
  lemma StartVoicesAfterStop(s: System)
    requires MaskDefined(s.ctx.channels) && ToU32(s.ctx.numChunks) != 0
    ensures StartStream(StopStream(s)).hw.voiceAddr == StartStream(s).hw.voiceAddr
  {
    var c, x := s.ctx, StopStream(s);
    var a, b := StartStream(x).hw.voiceAddr, StartStream(s).hw.voiceAddr;
    assert x.ctx == c && KeptFrom(x.hw.voiceAddr, s.hw.voiceAddr, c.channels);
    assert Striped(a, c.channels, c.spuAddr, c.bufferSize) && KeptFrom(a, x.hw.voiceAddr, c.channels);
    KeptFromTrans(a, x.hw.voiceAddr, s.hw.voiceAddr, c.channels);
    StripedKeptEqual(a, b, s.hw.voiceAddr, c.channels, c.spuAddr, c.bufferSize);
  }

  /** What an IRQ step does to the context and the upload log depends only
      on the context and the log before it. */
  lemma IrqStepReadsOnlyContext(a: System, b: System)
    requires a.ctx == b.ctx && ToU32(a.ctx.numChunks) != 0
    ensures IrqStep(a).ctx == IrqStep(b).ctx
    ensures a.hw.transfers == b.hw.transfers ==> IrqStep(a).hw.transfers == IrqStep(b).hw.transfers
  {
  }

  /** `start_stream` is not idempotent: each call performs an IRQ step, so a
      second call moves the cursor on again whenever there is more than one
      chunk. */
  lemma StartTwiceStepsTwice(s: System)
    requires Valid(s.ctx) && s.ctx.channels <= NUM_VOICES
    ensures StartStream(StartStream(s)).ctx == Advance(Advance(s.ctx))
    ensures 1 < s.ctx.numChunks ==>
      StartStream(StartStream(s)).ctx.nextChunk != StartStream(s).ctx.nextChunk
  {
    var once := StartStream(s);
    assert once.ctx == Advance(s.ctx) && once.ctx.channels == s.ctx.channels;
    AdvanceTwice(s.ctx);
  }

  /** Two IRQ steps from a valid context move the cursor on by two; the
      second step lands on a different chunk than the first whenever there is
      more than one. */
  lemma AdvanceTwice(c: Context)
    requires Valid(c)
    ensures Valid(Advance(c))
    ensures Advance(Advance(c)).nextChunk == ((c.nextChunk + 1) % c.numChunks + 1) % c.numChunks
    ensures 1 < c.numChunks ==> Advance(Advance(c)).nextChunk != Advance(c).nextChunk
  {
    var d := Advance(c);
    AdvanceWraps(c);
    AdvanceWraps(d);
    if 1 < c.numChunks {
      NextDiffers(d.nextChunk, c.numChunks);
    }
  }

  /** Only the DMA completion re-enables the IRQ or clears the in-flight
      flag: no other transition does either. */
  lemma OnlyDmaCompletionArms(s: System)
    requires ToU32(s.ctx.numChunks) != 0 && MaskDefined(s.ctx.channels)
    ensures !IrqArmed(IrqStep(s).hw) && IrqStep(s).ctx.buffering == 1
    ensures !IrqArmed(StartStream(s).hw) && StartStream(s).ctx.buffering == 1
    ensures IrqArmed(StopStream(s).hw) == IrqArmed(s.hw) && StopStream(s).ctx.buffering == s.ctx.buffering
    ensures IrqArmed(ResetChannels(s.hw)) == IrqArmed(s.hw)
  {
  }

  /** The cursor uses the `uint32_t` remainder of the C code: from -2 with 3
      chunks the sum -1 converts to 2^32 - 1, whose remainder is 0. The
      Euclidean remainder of -1 would be 2 and C's signed one -1. Reachable
      states never hold such a cursor. */
  lemma CursorUsesUnsignedRemainder()
    ensures NextCursor(-2, 3) == 0
    ensures (-2 + 1) % 3 == 2
  {
  }

  /** The example asset: 88200 bytes at interleave 4096 in stereo gives 22
      chunks; after `init_stream` no upload is in flight, the cursor is on
      chunk 0 (already primed), and the next IRQ loads chunk 1. */
  lemma ExampleInit(s: System, asset: seq<Byte>)
    requires |asset| >= HEADER_REGION
    requires Interleave(Parse(asset)) == 4096 && PayloadSize(Parse(asset)) == 88200
    requires ChannelCount(Parse(asset)) == 2
    ensures InitStream(s, asset).Success?
    ensures var t := InitStream(s, asset).value;
      && t.ctx.numChunks == 22
      && t.ctx.buffering == 0
      && t.ctx.nextChunk == 0
      && IrqStep(t).ctx.nextChunk == 1
      && IrqStep(t).hw.transfers[|t.hw.transfers|].offset == 8192
  {
    assert ChunkCount(88200, 4096) == 22;
  }

  /** With 22 chunks, the 23rd upload from the seed targets chunk 0 again. */
  lemma ExampleWrap(s: System)
    requires Seeded(s.ctx) && s.ctx.numChunks == 22
    ensures Run(s, 23).hw.transfers[|s.hw.transfers| + 22].offset == 0
  {
    WrapAround(s);
  }

  /** `0x00ffffff` is the key mask of all 24 voices. */
  lemma AllVoicesMask()
    ensures ChannelMask(NUM_VOICES) == ALL_VOICES
    ensures forall i: nat :: i < 32 ==> (ALL_VOICES & VoiceBit(i) != 0 <==> i < NUM_VOICES)
  {
  }
}

=== FILE: vag_header.dfy ===
/** The `.VAG` header of inc/spu.h: a 48-byte record at the start of a
    2048-byte header region, followed by the interleaved sample payload. */
module VagHeader {
  import opened Endian

  /** Byte offsets of the fields within the record. */
  const MAGIC_OFFSET: nat := 0
  const VERSION_OFFSET: nat := 4
  const INTERLEAVE_OFFSET: nat := 8
  const SIZE_OFFSET: nat := 12
  const RATE_OFFSET: nat := 16
  const RESERVED_OFFSET: nat := 20
  const RESERVED_SIZE: nat := 10
  const CHANNELS_OFFSET: nat := 30
  const NAME_OFFSET: nat := 32
  const NAME_SIZE: nat := 16
  const HEADER_SIZE: nat := 48

  /** The payload starts this many bytes into the asset. */
  const HEADER_REGION: nat := 2048

  /** "VAGi", the tag of interleaved files, read as a native word. */
  const VAG_MAGIC: bv32 := 0x6947_4156

  /** The fields as the target reads them, in native (little-endian) order.
      `size` and `sampleRate` are stored big-endian in the file, so their
      values here are the byte-swapped ones. `channels == 0` means mono. */
  datatype Header = Header(
    magic: bv32,
    version: bv32,
    interleave: bv32,
    size: bv32,
    sampleRate: bv32,
    reserved: seq<Byte>,
    channels: bv16,
    name: seq<Byte>)

  predicate WellFormed(h: Header) {
    |h.reserved| == RESERVED_SIZE && |h.name| == NAME_SIZE
  }

  /** Reading the record from the first bytes of an asset. */
  function Parse(b: seq<Byte>): (h: Header)
    requires |b| >= HEADER_SIZE
    ensures WellFormed(h)
    ensures Encode(h) == b[..HEADER_SIZE]
  {
    Le32BytesRoundTrip(b, MAGIC_OFFSET);
    Le32BytesRoundTrip(b, VERSION_OFFSET);
    Le32BytesRoundTrip(b, INTERLEAVE_OFFSET);
    Le32BytesRoundTrip(b, SIZE_OFFSET);
    Le32BytesRoundTrip(b, RATE_OFFSET);
    Le16BytesRoundTrip(b, CHANNELS_OFFSET);
    SplitFields(b);
    Header(
      Le32At(b, MAGIC_OFFSET),
      Le32At(b, VERSION_OFFSET),
      Le32At(b, INTERLEAVE_OFFSET),
      Le32At(b, SIZE_OFFSET),
      Le32At(b, RATE_OFFSET),
      b[RESERVED_OFFSET..RESERVED_OFFSET + RESERVED_SIZE],
      Le16At(b, CHANNELS_OFFSET),
      b[NAME_OFFSET..NAME_OFFSET + NAME_SIZE])
  }

  /** The bytes of a record, field after field with no padding. */
  function Encode(h: Header): (b: seq<Byte>)
    requires WellFormed(h)
    ensures |b| == HEADER_SIZE
  {
    Le32Bytes(h.magic) + Le32Bytes(h.version) + Le32Bytes(h.interleave) +
    Le32Bytes(h.size) + Le32Bytes(h.sampleRate) + h.reserved +
    Le16Bytes(h.channels) + h.name
  }

  /** Encoding then parsing gives the record back. */
  lemma ParseEncode(h: Header)
    requires WellFormed(h)
    ensures Parse(Encode(h)) == h
  {
    var b := Encode(h);
    EncodeSlices(h);
    Le32AtSlice(b, MAGIC_OFFSET, h.magic);
    Le32AtSlice(b, VERSION_OFFSET, h.version);
    Le32AtSlice(b, INTERLEAVE_OFFSET, h.interleave);
    Le32AtSlice(b, SIZE_OFFSET, h.size);
    Le32AtSlice(b, RATE_OFFSET, h.sampleRate);
    Le16AtSlice(b, CHANNELS_OFFSET, h.channels);
  }

  /** Where each field lands in the encoded record. */
  lemma EncodeSlices(h: Header)
    requires WellFormed(h)
    ensures Encode(h)[MAGIC_OFFSET..MAGIC_OFFSET + 4] == Le32Bytes(h.magic)
    ensures Encode(h)[VERSION_OFFSET..VERSION_OFFSET + 4] == Le32Bytes(h.version)
    ensures Encode(h)[INTERLEAVE_OFFSET..INTERLEAVE_OFFSET + 4] == Le32Bytes(h.interleave)
    ensures Encode(h)[SIZE_OFFSET..SIZE_OFFSET + 4] == Le32Bytes(h.size)
    ensures Encode(h)[RATE_OFFSET..RATE_OFFSET + 4] == Le32Bytes(h.sampleRate)
    ensures Encode(h)[RESERVED_OFFSET..RESERVED_OFFSET + RESERVED_SIZE] == h.reserved
    ensures Encode(h)[CHANNELS_OFFSET..CHANNELS_OFFSET + 2] == Le16Bytes(h.channels)
    ensures Encode(h)[NAME_OFFSET..NAME_OFFSET + NAME_SIZE] == h.name
  {
    FieldSlices(Le32Bytes(h.magic), Le32Bytes(h.version), Le32Bytes(h.interleave),
                Le32Bytes(h.size), Le32Bytes(h.sampleRate), h.reserved,
                Le16Bytes(h.channels), h.name);
  }

  /** Slicing eight concatenated fields of the record's widths. */
  lemma FieldSlices(m: seq<Byte>, v: seq<Byte>, i: seq<Byte>, z: seq<Byte>,
                    r: seq<Byte>, x: seq<Byte>, c: seq<Byte>, n: seq<Byte>)
    requires |m| == |v| == |i| == |z| == |r| == 4 && |x| == 10 && |c| == 2 && |n| == 16
    ensures var b := m + v + i + z + r + x + c + n;
      b[0..4] == m && b[4..8] == v && b[8..12] == i && b[12..16] == z &&
      b[16..20] == r && b[20..30] == x && b[30..32] == c && b[32..48] == n
  {
    SliceOfConcat([], m, v + i + z + r + x + c + n);
    SliceOfConcat(m, v, i + z + r + x + c + n);
    SliceOfConcat(m + v, i, z + r + x + c + n);
    SliceOfConcat(m + v + i, z, r + x + c + n);
    SliceOfConcat(m + v + i + z, r, x + c + n);
    SliceOfConcat(m + v + i + z + r, x, c + n);
    SliceOfConcat(m + v + i + z + r + x, c, n);
    SliceOfConcat(m + v + i + z + r + x + c, n, []);
  }

  lemma SliceOfConcat(a: seq<Byte>, x: seq<Byte>, c: seq<Byte>)
    ensures (a + x + c)[|a|..|a| + |x|] == x
  {
  }

  /** Parsing then encoding gives back the first 48 bytes. */
  lemma EncodeParse(b: seq<Byte>)
    requires |b| >= HEADER_SIZE
    ensures Encode(Parse(b)) == b[..HEADER_SIZE]
  {
    var h := Parse(b);
    Le32BytesRoundTrip(b, MAGIC_OFFSET);
    Le32BytesRoundTrip(b, VERSION_OFFSET);
    Le32BytesRoundTrip(b, INTERLEAVE_OFFSET);
    Le32BytesRoundTrip(b, SIZE_OFFSET);
    Le32BytesRoundTrip(b, RATE_OFFSET);
    Le16BytesRoundTrip(b, CHANNELS_OFFSET);
    SplitFields(b);
  }

  /** The first 48 bytes are the concatenation of the field slices. */
  lemma SplitFields(b: seq<Byte>)
    requires |b| >= HEADER_SIZE
    ensures b[..HEADER_SIZE] == b[0..4] + b[4..8] + b[8..12] + b[12..16] + b[16..20] +
                                b[20..30] + b[30..32] + b[32..48]
  {
  }

  /** The record is laid out contiguously and fits in the header region. */
  lemma LayoutFitsRegion()
    ensures MAGIC_OFFSET + 4 == VERSION_OFFSET && VERSION_OFFSET + 4 == INTERLEAVE_OFFSET
    ensures INTERLEAVE_OFFSET + 4 == SIZE_OFFSET && SIZE_OFFSET + 4 == RATE_OFFSET
    ensures RATE_OFFSET + 4 == RESERVED_OFFSET && RESERVED_OFFSET + RESERVED_SIZE == CHANNELS_OFFSET
    ensures CHANNELS_OFFSET + 2 == NAME_OFFSET && NAME_OFFSET + NAME_SIZE == HEADER_SIZE
    ensures HEADER_SIZE <= HEADER_REGION
  {
  }

  /** The magic word spells "VAGi" in file order. */
  lemma MagicSpellsVagi()
    ensures Le32('V' as int as Byte, 'A' as int as Byte, 'G' as int as Byte, 'i' as int as Byte) == VAG_MAGIC
  {
  }

  /** The per-channel buffer size in bytes, stored in native order. */
  function Interleave(h: Header): (n: int)
    ensures 0 <= n < 0x1_0000_0000
    ensures n == 0 <==> h.interleave == 0
  {
    h.interleave as int
  }

  /** The payload size in bytes: stored big-endian, so swapped before use.
      It is the big-endian reading of the field's bytes in file order. */
  function PayloadSize(h: Header): (n: int)
    ensures 0 <= n < 0x1_0000_0000
    ensures n == Be32(ByteOf(h.size, 0), ByteOf(h.size, 1), ByteOf(h.size, 2), ByteOf(h.size, 3)) as int
  {
    SwapIsBigReading(h.size);
    SwapEndian(h.size) as int
  }

  /** The sample rate in hertz: stored big-endian, so swapped before use.
      It is the big-endian reading of the field's bytes in file order. */
  function SampleRate(h: Header): (n: int)
    ensures 0 <= n < 0x1_0000_0000
    ensures n == Be32(ByteOf(h.sampleRate, 0), ByteOf(h.sampleRate, 1), ByteOf(h.sampleRate, 2), ByteOf(h.sampleRate, 3)) as int
  {
    SwapIsBigReading(h.sampleRate);
    SwapEndian(h.sampleRate) as int
  }

  /** The values the record yields are the file's bytes read in the order
      each field is stored in: `interleave` little-endian, `size` and
      `sample_rate` big-endian. */
  lemma FieldsInFileOrder(b: seq<Byte>)
    requires |b| >= HEADER_SIZE
    ensures Interleave(Parse(b)) == Le32At(b, INTERLEAVE_OFFSET) as int
    ensures PayloadSize(Parse(b)) == Be32At(b, SIZE_OFFSET) as int
    ensures SampleRate(Parse(b)) == Be32At(b, RATE_OFFSET) as int
  {
    SwapOfLittleIsBig(b, SIZE_OFFSET);
    SwapOfLittleIsBig(b, RATE_OFFSET);
  }

  /** The channel count in use: the stored count, with 0 read as mono. */
  function ChannelCount(h: Header): (c: int)
    ensures 1 <= c <= 0xffff
    ensures h.channels != 0 ==> c == h.channels as int
    ensures h.channels == 0 ==> c == 1
  {
    if h.channels != 0 then h.channels as int else 1
  }
}
